=== FILE: README.md ===
# Solar-system viewer: controller and draw-context model

A Dafny model of the logic inside an OpenGL/GLUT solar-system viewer. The
viewer shows a sun, planets, a moon and a ringed planet from a movable
spacecraft, in a perspective main viewport and in an overhead plan (edge)
viewport. Once the graphics calls are abstracted away, two parts of
`main.cpp` are pure logic, and this project models them:

- **The keyboard/timer controller** (`controller.dfy`, module `Controller`).
  Its globals are `isAnimate`, `animationPeriod`, `generate`, `latAngle`, the
  spacecraft heading `angle`, its position `xVal`/`zVal`, and `frameCount`.
  There is one pure transition per callback: the printable-key callback, the
  special-key (arrow) callback, the orbit timer `animate`, the FPS timer
  `frameCounter`, and the frame-counter increment at the start of every
  redraw. The key and timer callbacks return a `Step` with the new globals,
  the timers they registered, whether they posted a redisplay, and the FPS
  value printed. The frame-counter increment returns the new globals only,
  and a whole redraw returns a `Scene.Frame`.
- **The draw-context protocol** (`draw_context.dfy`, `bodies.dfy`,
  `scene.dfy`). The two viewport loops set and clear the global flags `sun`,
  `moon`, `saturn` and `plan` around each body's draw call.
  - `DrawContext` models each loop as the sequence of flag snapshots the ten
    draws observe.
  - `Bodies` models `Asteroid::draw` as a pure function from body and flags to
    a command record. The record says whether the draw is skipped and where
    the light sits. It also gives the material, the rotations, the rings and
    the sphere's tessellation.
  - `Scene` composes one redraw: the counter increment, the star-regeneration
    decision, and the command lists of the main viewport and the edge
    viewport.
- **The event loop** (`event_loop.dfy`, module `EventLoop`). It holds the
  globals, the flags and the queue of registered timers. It dispatches one
  callback at a time and lets any registered timer fire next. This covers
  every firing order the toolkit's deadlines can produce. A global invariant
  is proved for every event sequence from start-up.

Angles are whole degrees. The heading and `latAngle` only ever move by ±5
from 0. The heading stays in [0, 360], so its `float` value is an exact
integer. `latAngle` is exact only up to 2^24 (see `Controller.AnimateTick`
under "## Left out"). The period is already an `int`. The spacecraft position is a `real`.
The Up/Down displacement is the parameter `bearing: int -> Dir`, which gives
the sine and cosine of a heading in degrees.

Several boundaries differ from what one might assume. The model follows the
code:

- `+` stops at a period of 5 ms, not 6. `+` only subtracts while the period
  is above 5, and 5 is reachable from 100.
- The heading range is the closed [0, 360]. A heading of 360 is reached
  (Right then Left from 0) and is not wrapped.
- The spacecraft-positioned light is used when `sun` is **set**, so it lights
  the sun (index 0). Every other body is lit from the origin.
- The printable-key callback never posts a redisplay itself. Only the
  immediate `animate(1)` when Space switches animation on does.
- Pressing Space twice in a row always advances `latAngle` by exactly 5. This
  is because enabling animation runs the orbit callback at once.

## Model

| member | source | states |
|---|---|---|
| Controller.Init | main.cpp:18-42 | Start-up globals: not animating, 100 ms period, stars generated (`generate` is initialised at main.cpp:211), angles 0, spacecraft at (0, 150), no frames counted |
| Controller.AnimateTick | main.cpp:27-33 | The orbit tick adds 5 to `latAngle`, posts a redisplay and registers one successor timer with the current period only while animating. Otherwise it changes nothing and registers nothing, which ends the chain |
| Controller.FrameCounterTick | main.cpp:223-228 | The FPS tick reports the count only when its value is non-zero (the first call from setup passes 0). It always resets the count to 0 and always re-registers after 1000 ms. Nothing else changes |
| Controller.CountFrame | main.cpp:388 | A redraw adds exactly 1 to `frameCount` and changes nothing else |
| Controller.KeyInput | main.cpp:416-440 | Escape, and only Escape, exits. Space flips `isAnimate`, and switching it on equals running the orbit tick with the flag set. S/s flips `generate` and nothing else. `+` subtracts 5 iff the period is above 5. `-` adds 5. Any other key changes nothing. No branch posts a redisplay of its own: only Space switching animation on posts one, through the orbit tick. Reachable periods stay reachable |
| Controller.Wrap | main.cpp:458-460 | The angle correction leaves [0, 360] unchanged, maps [-360, 720] into [0, 360], and changes the angle only by a multiple of 360 |
| Controller.SpecialKeyInput | main.cpp:443-468 | Left/Right change only the heading (±5, corrected) and Up/Down only x/z (∓/± sin, cos of the old heading). The new pose is always committed and a redisplay is posted. A reachable heading stays reachable |
| Controller.PlusBottomsOut | main.cpp:431-433 | n presses of `+` from a reachable period p leave max(5, p − 5n) and change nothing else |
| Controller.InitialPeriodFloor | main.cpp:20 | From 100 ms the period never drops below 5. It equals 5 exactly after 19 or more presses of `+` |
| Controller.MinusThenPlus | main.cpp:431-436 | `-` then `+` restores the globals iff the period is positive |
| Controller.PlusThenMinus | main.cpp:431-436 | `+` then `-` restores the globals iff the period is above 5 |
| Controller.SpaceTwice | main.cpp:420-426 | Two Space presses restore `isAnimate`, advance `latAngle` by exactly 5, and change nothing else |
| Controller.StarToggleTwice | main.cpp:427-429 | Two S/s presses restore the globals |
| Controller.RightThenLeft | main.cpp:447-460 | From a reachable heading, Right then Left restores the pose iff the heading is not 0. From 0 it yields 360 |
| Controller.LeftThenRight | main.cpp:447-460 | From a reachable heading, Left then Right restores the pose iff the heading is not 360. From 360 it yields 0 |
| Controller.UpThenDown | main.cpp:449-456 | Up then Down at a reachable heading returns the spacecraft to the same pose |
| Controller.HeadingStaysInRange | main.cpp:443-465 | Any sequence of special keys keeps the heading a multiple of 5 in [0, 360] |
| Controller.LeftPressesReach | main.cpp:447 | n ≤ 72 Left presses from start-up reach heading 5n, so every multiple of 5 in [0, 360] is reachable, 360 included |
| Controller.FramesReported | main.cpp:223-228 | After an FPS tick, n redraws followed by the next tick report exactly n frames |
| Controller.UpThenRightFromStart | main.cpp:444-465 | From start-up, with sin 0 = 0 and cos 0 = 1, Up moves (0, 150) to (0, 149) and Right then turns the heading to 355 |
| DrawContext.FlagsFor | main.cpp:297-305 | The context of one role: at most one of `sun`/`moon`/`saturn` is set, and `plan` is set iff the view is the plan view |
| DrawContext.LoopFrom | main.cpp:298-305 | Iterations j..9 of a viewport loop. Only the first draw can see flags left over from before. Every later draw k sees `moon` iff k = 4, `saturn` iff k = 7, never `sun`, and `plan` unchanged. The loop ends with `sun`, `moon`, `saturn` cleared |
| DrawContext.MainLoop | main.cpp:297-305 | With `moon`/`saturn` clear on entry, draw k of the main loop sees exactly the context of its role (sun 0, moon 4, ringed 7). `sun`, `moon` and `saturn` are cleared afterwards |
| DrawContext.EdgeLoop | main.cpp:354-374 | `plan` is set for every draw of the edge loop and all four flags are cleared afterwards. With `moon`/`saturn` clear on entry, draw k sees the plan-view context of its role |
| DrawContext.FrameKeepsFlagsClear | main.cpp:297-374 | Starting from cleared flags, the main loop and then the edge loop leave all flags cleared, so every redraw starts from the same context |
| DrawContext.OneRolePerDraw | main.cpp:297-364 | In both loops `sun` is seen only by draw 0, `moon` only by draw 4 and `saturn` only by draw 7 |
| Bodies.EmptySlot | main.cpp:107-111 | The default constructor yields an absent body at the origin with a black colour |
| Bodies.NewAsteroid | main.cpp:114-118 | The constructor keeps centre, radius and colour. The body is present iff its radius is positive |
| Bodies.RingsFrom | main.cpp:190 | The ring loop draws rings i..5 with tube radius i and ring radius radii[7] + i |
| Bodies.Draw | main.cpp:126-204 | A draw is skipped iff radius ≤ 0. The light is at the origin iff `sun` is clear; otherwise it is at the spacecraft at height 300 under `plan` and 0 otherwise. The material follows `sun`. There are 2 rotations iff `moon`, with the second three times faster about X. There are 5 rings iff `saturn`. The sphere has the body's centre, radius and colour and ⌊6·radius⌋ slices |
| Bodies.EmptySlotNeverDrawn | main.cpp:127 | A default-constructed body draws nothing in any context |
| Bodies.RingedPlanetRings | main.cpp:185-193 | The ringed planet's five rings have tube radii 1..5 and ring radii radii[7] + 1 .. radii[7] + 5 |
| Scene.Render | main.cpp:301 | A body command draws its catalog entry with its speed: it draws nothing iff the slot is empty. The orbit rotation reads `latAngle` and the spacecraft-positioned light reads `xVal`/`zVal`. Belts and the spacecraft draw no body |
| Scene.MainCmds | main.cpp:298-305 | The main viewport issues one draw per catalog index, in order, each with that index's flag snapshot |
| Scene.EdgeCmds | main.cpp:358-372 | Per index in order, the edge viewport issues the body draw with that index's snapshot and then the orbit belt of radius x_k |
| Scene.EdgeCommands | main.cpp:357-381 | The edge viewport issues, per index in order, the body draw then the orbit belt of radius x_k. It ends with the spacecraft at its pose |
| Scene.DrawScene | main.cpp:387-400 | A redraw adds 1 to the frame count and changes no other global. It regenerates stars iff `generate` and leaves all flags cleared. Draw k of the main viewport sees the k-th snapshot of the main loop. Draw k of the edge viewport sees the k-th snapshot of the edge loop, which starts from the flags the main loop left |
| Scene.MainContexts | main.cpp:297-305 | With `moon`, `saturn` and `plan` clear on entry, body k of the main viewport is drawn with its role's main-view context |
| Scene.EdgeContexts | main.cpp:297-374 | Whatever flags a redraw is entered with, body k of the edge viewport is drawn with its role's plan-view context, because the main loop always clears `sun`, `moon` and `saturn` |
| Scene.LightPlacementByIndex | main.cpp:136-165 | Entered with `moon`, `saturn` and `plan` clear (cleared flags in particular), only the sun (index 0) is lit from the spacecraft: at height 0 in the main view and 300 in the plan view. Every other present body is lit from the origin. Absent bodies draw nothing |
| Scene.RotationsAndRingsByIndex | main.cpp:177-193 | Entered with `moon`, `saturn` and `plan` clear, a present body gets the second rotation iff it is index 4 and rings iff it is index 7, in both viewports |
| EventLoop.Setup | main.cpp:251 | Start-up registers exactly the FPS timer, with delay 0 and value 0, with cleared flags and initial globals |
| EventLoop.Without | main.cpp:27-33 | A fired timer leaves the queue: exactly that one timer is removed, every other timer stays registered with its delay and value, and so the count of its callback drops by one and other counts are unchanged |
| EventLoop.FireTimer | main.cpp:27-33 | A firing timer leaves the queue and its callback runs with its stored value. An FPS timer (main.cpp:223-228) replaces itself with a 1000 ms timer of value 1. An orbit timer runs the orbit tick and is replaced by one timer at the current period only while animating. The flags are untouched |
| EventLoop.Dispatch | main.cpp:492-495 | Each event runs its callback: a printable key other than Escape runs the key callback and appends the timers it registers, a special key runs the arrow-key callback, and a firing timer runs its callback with its stored value. Exactly Escape ends the process. Redraws and special keys never touch the timer queue. A redraw changes the globals only by one counted frame and leaves the flags cleared |
| EventLoop.KeyKeepsInv | main.cpp:416-440 | A printable key other than Escape keeps the invariant, including the orbit timer that Space registers when it switches animation on |
| EventLoop.SpecialKeepsInv | main.cpp:443-468 | A special key keeps the invariant: the heading stays reachable and the timer queue is untouched |
| EventLoop.KeyDispatchKeepsInv | main.cpp:416-440 | Every printable key keeps the invariant or ends the process |
| EventLoop.DisplayKeepsInv | main.cpp:387-400 | A redraw keeps the invariant |
| EventLoop.FireKeepsInv | main.cpp:27-33 | Any registered timer firing keeps the invariant. The FPS timer replaces itself, and an orbit timer does so while animating |
| EventLoop.FireKeepsChainCount | main.cpp:27-33 | A firing timer leaves the number of orbit timers unchanged, except that an orbit timer firing while not animating removes one |
| EventLoop.DispatchKeepsInv | main.cpp:416-468 | Every callback keeps the invariant. The period and heading stay reachable, `latAngle` stays a non-negative multiple of 5, the frame count stays non-negative and the flags stay cleared. Exactly one FPS timer stays registered, and at least one orbit timer while animating |
| EventLoop.RunKeepsInv | main.cpp:492-495 | Every event sequence from a world satisfying the invariant keeps it |
| EventLoop.ReachableInv | main.cpp:500-502 | Every world reachable from start-up satisfies the invariant |
| EventLoop.SpaceOff | main.cpp:421 | Space while animating clears the flag and leaves the timer queue as it was |
| EventLoop.SpaceOn | main.cpp:422-425 | Space while not animating sets the flag, adds 5 to `latAngle` and registers one orbit timer |
| EventLoop.FireOrbit | main.cpp:27-33 | An orbit timer firing while animating adds 5 to `latAngle` and replaces itself with one timer at the current period |
| EventLoop.ToggleOffOnAddsChain | main.cpp:420-426 | Space off then on while animating adds one orbit timer to those already registered |
| EventLoop.ThreeSpacesFromStart | main.cpp:420-426 | From start-up, Space on/off/on before any tick leaves two orbit timers registered |
| EventLoop.TwoChainFire | main.cpp:27-33 | With two orbit chains, one firing advances `latAngle` by 5 and re-registers, leaving two chains |
| EventLoop.TwoChainsDoubleSpeed | main.cpp:27-33 | With two orbit chains, both firing advances `latAngle` by 10 and both re-register |
| EventLoop.Cancel | main.cpp:421 | Removing the orbit timers leaves none of them. Every other timer stays registered exactly as it was, with the same number of copies, and no timer is added |
| EventLoop.DispatchCancelling | main.cpp:420-426 | The corrected loop: Space while animating clears the flag, keeps every other global, the flags and every non-orbit timer, and also cancels the orbit timers. Every other event is dispatched as written |
| EventLoop.DispatchCancellingKeepsSingleChain | main.cpp:420-426 | In the corrected loop every callback keeps one orbit timer while animating and none otherwise, together with the invariant |
| EventLoop.KeyKeepsSingleChain | main.cpp:416-440 | In the corrected loop, every printable key except Space while animating keeps one orbit timer while animating and none otherwise |
| EventLoop.SetupSingleChain | main.cpp:251 | Start-up has no orbit timer and animation off, so the corrected loop's invariant holds |
| EventLoop.RunCancellingKeepsSingleChain | main.cpp:492-495 | Every event sequence of the corrected loop keeps its invariant |
| EventLoop.ReachableSingleChain | main.cpp:500-502 | Every world the corrected loop reaches from start-up, in any timer order, has exactly one orbit timer while animating and none otherwise |
| EventLoop.ToggleOffOnKeepsOneChain | main.cpp:420-426 | In the corrected loop, Space off then on while animating leaves exactly one orbit timer |

## Left out

- All GL/GLU/GLUT calls are left out because they are foreign library calls.
  They are represented only by the command records of `Bodies.Draw` and
  `Scene`, the `redisplay` flag and the registered timers. This covers the
  matrix stack, light and material uploads, spheres, tori, display lists,
  scissor/viewport set-up, the buffer swap, window creation and the main
  loop.
- The Up/Down displacement uses floating-point `sin`/`cos`. It enters only
  through the `bearing` parameter.
- `generateStars` is left out because it is seeded from the wall clock and
  uses `rand`. A redraw only records whether the star field is regenerated.
- The `radii`, `positions`, `colors` and `speeds` tables are constant layout
  data. The catalog is a parameter of the redraw. The speeds enter only
  through `Scene.Render`, which applies a body's draw routine to a command. Only `radii[7]`
  appears, as `Bodies.RingedRadius`, because the ring loop reads it.
- Console output (`printInteraction`, the FPS line) is left out as I/O; the
  printed FPS value is the `report` of a step. `exit(0)` is the `Exit`
  result. `resize` and the window size are left out, since only the star
  field and viewport rectangles use them.
- Controller.AnimateTick: `latAngle` is an unbounded integer. The source's
  `float` stays exact only up to 2^24. After about 3.3 million ticks, adding
  5.0 rounds and eventually stops changing the value.
- Controller.KeyInput: the animation period is an unbounded integer. The
  source's `int` overflows after about 4.3·10^8 presses of `-`. In practice
  the period then goes negative, `+` stops lowering it, and the timer gets a
  huge delay. `EventLoop.Inv`'s period bound relies on this.
- Controller.CountFrame: `frameCount` is unbounded. The source's `int` would
  overflow after 2^31 − 1 redraws within one second, which cannot happen in
  practice.
- Controller.UpThenDown: the round trip is exact over the reals. With `float`
  arithmetic, x − s + s can differ from x in the last bit.
- Bodies.Draw: rotation angles are real products `latAngle · speed`, not
  `float` products. The five-element specular arrays are modelled by the
  four values the material call reads. The light colour and the line widths
  are constant and are not recorded. For the ringed planet, the ±60° tilt
  about X and the move to the body's centre around the rings are not
  recorded either, so the rotation list holds the orbit rotations only.
- The toolkit fires timers in deadline order. The event loop lets any
  registered timer fire next. This is a superset of the real orders, so
  every invariant proved holds for the real order too.

## Findings

| source | as written | input that shows it | evidently intended | confidence | as-written member | corrected member |
|---|---|---|---|---|---|---|
| main.cpp:420-426 | Switching animation off leaves the registered `animate` timer in place. Switching it on again calls `animate(1)`, which registers a second timer. When the old timer fires it finds the flag set and re-registers itself, so two chains run and the orbit advances twice per period. Both chains end only once animation stays off long enough for both timers to fire with the flag clear | Space, Space, Space within one period (100 ms) of the first press, before the orbit timer that press registered fires | Switching off stops the orbit chain, so exactly one chain runs while animating and none otherwise | medium, not executed | EventLoop.ThreeSpacesFromStart | EventLoop.DispatchCancelling |

`EventLoop.Dispatch` models the program as written. `EventLoop.Inv` is proved
for it: while animating, at least one orbit timer is registered.
`EventLoop.ToggleOffOnAddsChain` and `EventLoop.TwoChainsDoubleSpeed` show how
the extra chain arises and what it does. `EventLoop.DispatchCancelling` is the
corrected loop. For it, `EventLoop.DispatchCancellingKeepsSingleChain` proves
that exactly one orbit chain runs while animating and none otherwise.

=== FILE: bodies.dfy ===
/**
 * Celestial bodies ("asteroids") and their draw routine, with the graphics
 * calls replaced by an abstract command record: whether anything is drawn,
 * where the light sits, the material, the rotations applied, the rings and
 * the sphere's tessellation.
 */
module Bodies {
  import opened Types
  import opened DrawContext

  datatype Point = Point(x: real, y: real, z: real)

  datatype Color = Color(red: Byte, green: Byte, blue: Byte)

  /** A body of the catalog; a radius of 0 or less marks an empty slot. */
  datatype Asteroid = Asteroid(center: Point, radius: real, color: Color)

  const Origin: Point := Point(0.0, 0.0, 0.0)
  const Black: Color := Color(0, 0, 0)

  /** The catalog radius of the ringed planet (index 7): 3.45 Earth radii of 3.0. */
  const RingedRadius: real := 3.0 * 3.45
  /** Number of rings drawn around the ringed planet. */
  const RingCount: nat := 5
  /** Height of the spacecraft-positioned light in the plan viewport. */
  const PlanLightHeight: real := 300.0

  datatype Axis = XAxis | YAxis

  /** A rotation by `degrees` about `axis`. */
  datatype Rotation = Rotation(degrees: real, axis: Axis)

  /** Where light 0 is placed for a draw. */
  datatype Light = AtOrigin | AtSpacecraft(x: real, y: real, z: real)

  /** The specular colour (the four values the material call reads) and shininess. */
  datatype Material = Material(specular: seq<real>, shininess: real)

  /** A wire torus of tube radius `tube` and ring radius `radius`. */
  datatype Ring = Ring(tube: int, radius: real)

  /** What one draw call does. */
  datatype DrawCmd =
    | Skipped
    | Sphere(light: Light, material: Material, color: Color, rotations: seq<Rotation>,
             rings: seq<Ring>, center: Point, radius: real, slices: int)

  /** The material used when `sun` is clear. */
  const OriginLitMaterial: Material := Material([1.0, 1.0, 1.0, 0.0], 50.0)
  /** The material used when `sun` is set. */
  const CraftLitMaterial: Material := Material([0.5, 0.3, 0.0, 0.3], 25.0)

  predicate Exists(a: Asteroid) {
    a.radius > 0.0
  }

  /** The default constructor: an empty slot at the origin, black. */
  function EmptySlot(): (a: Asteroid)
    ensures !Exists(a)
    ensures a.center == Origin && a.color == Black
  {
    Asteroid(Origin, 0.0, Black)
  }

  /** The constructor copying centre, radius and colour; the slot is occupied iff r > 0. */
  function NewAsteroid(center: Point, r: real, color: Color): (a: Asteroid)
    ensures Exists(a) <==> r > 0.0
    ensures a.center == center && a.radius == r && a.color == color
  {
    Asteroid(center, r, color)
  }

  /** The rings for loop indices `i` .. 5: tube radius i, ring radius RingedRadius + i. */
  function RingsFrom(i: int): (rs: seq<Ring>)
    requires 1 <= i <= RingCount + 1
    ensures |rs| == RingCount + 1 - i
    ensures forall k :: 0 <= k < |rs| ==> rs[k].tube == i + k && rs[k].radius == RingedRadius + (i + k) as real
    decreases RingCount + 1 - i
  {
    if i == RingCount + 1 then [] else [Ring(i, RingedRadius + i as real)] + RingsFrom(i + 1)
  }

  /**
   * The draw routine of one body with context flags `f`, orbital angle
   * `latAngle`, orbital speed factor `speed` and spacecraft position
   * (`craftX`, `craftZ`).
   */
  function Draw(a: Asteroid, speed: real, f: Flags, latAngle: int, craftX: real, craftZ: real): (c: DrawCmd)
    // Nothing is drawn for an empty slot.
    ensures c.Skipped? <==> !Exists(a)
    // The light sits at the origin unless `sun` is set; then it follows the
    // spacecraft, 300 units up in the plan view and at height 0 otherwise.
    ensures c.Sphere? ==> (c.light == AtOrigin <==> !f.sun)
    ensures c.Sphere? && f.sun ==>
      c.light == AtSpacecraft(craftX, if f.plan then PlanLightHeight else 0.0, craftZ)
    ensures c.Sphere? ==> c.material == (if f.sun then CraftLitMaterial else OriginLitMaterial)
    // One revolution about the vertical axis; a moon adds a faster one about X.
    ensures c.Sphere? ==> |c.rotations| == (if f.moon then 2 else 1)
    ensures c.Sphere? ==> c.rotations[0] == Rotation(latAngle as real * speed, YAxis)
    ensures c.Sphere? && f.moon ==> c.rotations[1] == Rotation(latAngle as real * speed * 3.0, XAxis)
    // The ringed planet gets five rings, every other body none.
    ensures c.Sphere? ==> |c.rings| == (if f.saturn then RingCount else 0)
    // The sphere itself: the body's centre, radius and colour, 6 * radius slices truncated.
    ensures c.Sphere? ==> c.center == a.center && c.radius == a.radius && c.color == a.color
    ensures c.Sphere? ==> 0 <= c.slices && c.slices as real <= 6.0 * a.radius < c.slices as real + 1.0
  {
    if !Exists(a) then Skipped
    else
      var light :=
        if !f.sun then AtOrigin
        else if f.plan then AtSpacecraft(craftX, PlanLightHeight, craftZ)
        else AtSpacecraft(craftX, 0.0, craftZ);
      var material := if !f.sun then OriginLitMaterial else CraftLitMaterial;
      var orbit := Rotation(latAngle as real * speed, YAxis);
      var rotations := if f.moon then [orbit, Rotation(latAngle as real * speed * 3.0, XAxis)] else [orbit];
      var rings := if f.saturn then RingsFrom(1) else [];
      Sphere(light, material, a.color, rotations, rings, a.center, a.radius, (a.radius * 6.0).Floor)
  }

  /** An empty slot draws nothing, whatever the context. */
  lemma EmptySlotNeverDrawn(speed: real, f: Flags, latAngle: int, craftX: real, craftZ: real)
    ensures Draw(EmptySlot(), speed, f, latAngle, craftX, craftZ) == Skipped
  {
  }

  /** The ringed planet's rings have tube radii 1..5 and ring radii RingedRadius + 1 .. RingedRadius + 5. */
  lemma RingedPlanetRings(a: Asteroid, speed: real, f: Flags, latAngle: int, craftX: real, craftZ: real)
    requires Exists(a) && f.saturn
    ensures var c := Draw(a, speed, f, latAngle, craftX, craftZ);
      forall k :: 0 <= k < RingCount ==> c.rings[k] == Ring(k + 1, RingedRadius + (k + 1) as real)
  {
  }
}

=== FILE: controller.dfy ===
/**
 * The keyboard and timer controller of the solar-system viewer: the animation
 * flag and period, the star-generation toggle, the orbital angle, the
 * spacecraft pose and the frame counter, with one pure transition per
 * callback (printable key, arrow key, orbit tick, FPS tick, redraw).
 *
 * Angles are whole degrees: the heading and the orbital angle only ever move
 * in steps of 5 from 0. The source's float heading stays within [0, 360] and
 * is therefore an exact integer; the orbital angle is exact up to 2^24.
 */
module Controller {
  import opened Types

  // Printable-key codes the keyboard callback distinguishes.
  const Escape: Byte := 27
  const Space: Byte := 32
  const PlusKey: Byte := 43
  const MinusKey: Byte := 45
  const UpperS: Byte := 83
  const LowerS: Byte := 115

  // GLUT codes of the arrow keys in the special-key callback.
  const KeyLeft: int := 100
  const KeyUp: int := 101
  const KeyRight: int := 102
  const KeyDown: int := 103

  const InitialPeriod: int := 100
  /** Step of the animation period for `+` / `-`, and its floor. */
  const PeriodStep: int := 5
  /** Degrees the orbital angle advances per orbit tick. */
  const OrbitStep: int := 5
  /** Degrees one Left/Right press turns the spacecraft. */
  const TurnStep: int := 5
  const FullTurn: int := 360
  /** Milliseconds between two FPS reports. */
  const FpsPeriod: int := 1000

  /** The globals the callbacks read and write. */
  datatype State = State(
    isAnimate: bool,
    animationPeriod: int,
    generate: bool,
    latAngle: int,
    angle: int,
    xVal: real,
    zVal: real,
    frameCount: int)

  /** The two timer callbacks the program registers. */
  datatype Callback = Animate | FrameCounter

  /** A registered timer: fire `callback(value)` after `delay` milliseconds. */
  datatype Timer = Timer(delay: int, callback: Callback, value: int)

  /**
   * What one callback leaves behind: the new globals, the timers it
   * registered (in order), whether it posted a redisplay, and the frame count
   * it printed, if any.
   */
  datatype Step = Step(next: State, scheduled: seq<Timer>, redisplay: bool, report: Option<int>)

  /** The outcome of a printable key: the process exits, or it carries on. */
  datatype KeyResult = Exit | Continue(step: Step)

  /** Sine and cosine of a heading, the displacement of one Up/Down press. */
  datatype Dir = Dir(sin: real, cos: real)

  /** A callback that changed the globals to `s` and did nothing else. */
  function Quiet(s: State): Step {
    Step(s, [], false, None)
  }

  /** The globals at start-up. */
  function Init(): (s: State)
    ensures !s.isAnimate && s.generate
    ensures s.animationPeriod == InitialPeriod
    ensures s.latAngle == 0 && s.angle == 0 && s.frameCount == 0
    ensures s.xVal == 0.0 && s.zVal == 150.0
  {
    State(false, InitialPeriod, true, 0, 0, 0.0, 150.0, 0)
  }

  /** The animation periods `+` and `-` can reach from the initial one. */
  predicate PeriodOk(p: int) {
    p >= PeriodStep && p % PeriodStep == 0
  }

  /** The headings Left and Right can reach from 0: multiples of 5 in [0, 360]. */
  predicate HeadingOk(a: int) {
    0 <= a <= FullTurn && a % TurnStep == 0
  }

  /**
   * The orbit timer callback: while animating, advance the orbital angle one
   * step, post a redisplay and re-register itself with the current period;
   * otherwise do nothing and let the timer chain end.
   */
  function AnimateTick(s: State): (r: Step)
    ensures r.report == None
    ensures r.next.(latAngle := s.latAngle) == s
    ensures r.next.latAngle == s.latAngle + (if s.isAnimate then OrbitStep else 0)
    ensures r.redisplay <==> s.isAnimate
    ensures |r.scheduled| == (if s.isAnimate then 1 else 0)
    ensures forall t :: t in r.scheduled ==> t == Timer(s.animationPeriod, Animate, 1)
  {
    if s.isAnimate then
      Step(s.(latAngle := s.latAngle + OrbitStep), [Timer(s.animationPeriod, Animate, 1)], true, None)
    else
      Quiet(s)
  }

  /**
   * The FPS timer callback: print the frames counted since the last report
   * (except on the first call, whose value is 0), reset the counter and
   * re-register itself one second later, whatever the animation state.
   */
  function FrameCounterTick(s: State, value: int): (r: Step)
    ensures r.next.frameCount == 0
    ensures r.next.(frameCount := s.frameCount) == s
    ensures r.scheduled == [Timer(FpsPeriod, FrameCounter, 1)]
    ensures !r.redisplay
    ensures r.report.Some? <==> value != 0
    ensures r.report.Some? ==> r.report.value == s.frameCount
  {
    var report := if value != 0 then Some(s.frameCount) else None;
    Step(s.(frameCount := 0), [Timer(FpsPeriod, FrameCounter, 1)], false, report)
  }

  /** The counter increment at the start of every redraw. */
  function CountFrame(s: State): (r: State)
    ensures r.frameCount == s.frameCount + 1
    ensures r.(frameCount := s.frameCount) == s
  {
    s.(frameCount := s.frameCount + 1)
  }

  /**
   * The printable-key callback. Escape exits; Space toggles animation and,
   * when it switches it on, runs the orbit callback at once; S/s toggles star
   * generation; `+` shortens the period by 5 only while it exceeds 5; `-`
   * lengthens it by 5 without bound; every other key is ignored. No branch
   * posts a redisplay of its own.
   */
  function KeyInput(s: State, key: Byte): (r: KeyResult)
    ensures r.Exit? <==> key == Escape
    ensures r.Continue? ==> r.step.report == None
    ensures key == Space ==> r.Continue? && r.step.next.isAnimate == !s.isAnimate
    ensures key == Space && s.isAnimate ==> r.step == Quiet(s.(isAnimate := false))
    ensures key == Space && !s.isAnimate ==> r.step == AnimateTick(s.(isAnimate := true))
    ensures key == UpperS || key == LowerS ==> r == Continue(Quiet(s.(generate := !s.generate)))
    ensures key == PlusKey ==> r.Continue? && r.step.next.(animationPeriod := s.animationPeriod) == s
    ensures key == PlusKey ==>
      (s.animationPeriod > PeriodStep <==> r.step.next.animationPeriod == s.animationPeriod - PeriodStep)
    ensures key == PlusKey && s.animationPeriod <= PeriodStep ==> r.step.next == s
    ensures key == PlusKey ==> r.step.scheduled == [] && !r.step.redisplay
    ensures key == MinusKey ==> r == Continue(Quiet(s.(animationPeriod := s.animationPeriod + PeriodStep)))
    ensures key !in {Escape, Space, UpperS, LowerS, PlusKey, MinusKey} ==> r == Continue(Quiet(s))
    ensures r.Continue? && PeriodOk(s.animationPeriod) ==> PeriodOk(r.step.next.animationPeriod)
  {
    if key == Escape then Exit
    else if key == Space then
      if s.isAnimate then Continue(Quiet(s.(isAnimate := false)))
      else Continue(AnimateTick(s.(isAnimate := true)))
    else if key == UpperS || key == LowerS then
      Continue(Quiet(s.(generate := !s.generate)))
    else if key == PlusKey then
      if s.animationPeriod > PeriodStep then
        Continue(Quiet(s.(animationPeriod := s.animationPeriod - PeriodStep)))
      else
        Continue(Quiet(s))
    else if key == MinusKey then
      Continue(Quiet(s.(animationPeriod := s.animationPeriod + PeriodStep)))
    else
      Continue(Quiet(s))
  }

  /**
   * The angle correction after a turn: above 360 subtract 360, then below 0
   * add 360. A heading of exactly 360 is kept.
   */
  function Wrap(a: int): (r: int)
    ensures 0 <= a <= FullTurn ==> r == a
    ensures -FullTurn <= a <= 2 * FullTurn ==> 0 <= r <= FullTurn
    ensures (r - a) % FullTurn == 0
  {
    var t := if a > FullTurn then a - FullTurn else a;
    if t < 0 then t + FullTurn else t
  }

  /**
   * The special-key callback: Left turns by +5 and Right by -5 degrees, Up
   * moves against and Down along the heading's (sin, cos), then the heading is
   * corrected and the new pose committed unconditionally, and a redisplay is
   * posted. The displacement is taken at the heading before the key.
   */
  function SpecialKeyInput(s: State, key: int, bearing: int -> Dir): (r: Step)
    ensures r.redisplay && r.scheduled == [] && r.report == None
    ensures r.next.(angle := s.angle, xVal := s.xVal, zVal := s.zVal) == s
    ensures key != KeyUp && key != KeyDown ==> r.next.xVal == s.xVal && r.next.zVal == s.zVal
    ensures key != KeyLeft && key != KeyRight ==> r.next.angle == Wrap(s.angle)
    ensures key == KeyLeft ==> r.next.angle == Wrap(s.angle + TurnStep)
    ensures key == KeyRight ==> r.next.angle == Wrap(s.angle - TurnStep)
    ensures key == KeyUp ==>
      r.next.xVal == s.xVal - bearing(s.angle).sin && r.next.zVal == s.zVal - bearing(s.angle).cos
    ensures key == KeyDown ==>
      r.next.xVal == s.xVal + bearing(s.angle).sin && r.next.zVal == s.zVal + bearing(s.angle).cos
    ensures HeadingOk(s.angle) ==> HeadingOk(r.next.angle)
  {
    var d := bearing(s.angle);
    var tempAngle :=
      if key == KeyLeft then s.angle + TurnStep
      else if key == KeyRight then s.angle - TurnStep
      else s.angle;
    var tempX :=
      if key == KeyUp then s.xVal - d.sin
      else if key == KeyDown then s.xVal + d.sin
      else s.xVal;
    var tempZ :=
      if key == KeyUp then s.zVal - d.cos
      else if key == KeyDown then s.zVal + d.cos
      else s.zVal;
    Step(s.(xVal := tempX, zVal := tempZ, angle := Wrap(tempAngle)), [], true, None)
  }

  /** The globals after a printable key other than Escape. */
  function Press(s: State, key: Byte): State
    requires key != Escape
  {
    KeyInput(s, key).step.next
  }

  /** The globals after an arrow or other special key. */
  function PressSpecial(s: State, key: int, bearing: int -> Dir): State {
    SpecialKeyInput(s, key, bearing).next
  }

  /** The globals after `n` presses of the same printable key. */
  function Repeat(s: State, key: Byte, n: nat): State
    requires key != Escape
  {
    if n == 0 then s else Press(Repeat(s, key, n - 1), key)
  }

  /** The globals after a sequence of special keys. */
  function RunSpecial(s: State, keys: seq<int>, bearing: int -> Dir): State
    decreases |keys|
  {
    if |keys| == 0 then s else RunSpecial(PressSpecial(s, keys[0], bearing), keys[1..], bearing)
  }

  /** The globals after `n` redraws. */
  function Redraws(s: State, n: nat): State {
    if n == 0 then s else CountFrame(Redraws(s, n - 1))
  }

  /** `n` presses of `+` from a reachable period leave max(5, p - 5n). */
  lemma {:induction false} PlusBottomsOut(s: State, n: nat)
    requires PeriodOk(s.animationPeriod)
    ensures Repeat(s, PlusKey, n).animationPeriod ==
      (if s.animationPeriod - PeriodStep * n > PeriodStep then s.animationPeriod - PeriodStep * n else PeriodStep)
    ensures Repeat(s, PlusKey, n).(animationPeriod := s.animationPeriod) == s
  {
    if n > 0 {
      PlusBottomsOut(s, n - 1);
    }
  }

  /** From the initial 100 ms, 19 presses of `+` reach the floor of 5 ms, and more stay there. */
  lemma InitialPeriodFloor(n: nat)
    ensures Repeat(Init(), PlusKey, n).animationPeriod >= PeriodStep
    ensures n >= 19 <==> Repeat(Init(), PlusKey, n).animationPeriod == PeriodStep
  {
    PlusBottomsOut(Init(), n);
  }

  /** `-` then `+` restores the globals exactly when the period is positive. */
  lemma MinusThenPlus(s: State)
    ensures Press(Press(s, MinusKey), PlusKey) == s <==> s.animationPeriod > 0
  {
  }

  /** `+` then `-` restores the globals exactly when the period is above the floor. */
  lemma PlusThenMinus(s: State)
    ensures Press(Press(s, PlusKey), MinusKey) == s <==> s.animationPeriod > PeriodStep
  {
  }

  /**
   * Two presses of Space restore the animation flag; together they advance
   * the orbital angle by exactly one step (the immediate tick on enabling)
   * and change nothing else.
   */
  lemma SpaceTwice(s: State)
    ensures Press(Press(s, Space), Space) == s.(latAngle := s.latAngle + OrbitStep)
  {
  }

  /** S/s is an involution on the globals. */
  lemma StarToggleTwice(s: State, k1: Byte, k2: Byte)
    requires k1 == UpperS || k1 == LowerS
    requires k2 == UpperS || k2 == LowerS
    ensures Press(Press(s, k1), k2) == s
  {
  }

  /** Right then Left restores a reachable heading, except 0, which becomes 360. */
  lemma RightThenLeft(s: State, bearing: int -> Dir)
    requires HeadingOk(s.angle)
    ensures PressSpecial(PressSpecial(s, KeyRight, bearing), KeyLeft, bearing) == s <==> s.angle != 0
    ensures s.angle == 0 ==> PressSpecial(PressSpecial(s, KeyRight, bearing), KeyLeft, bearing) == s.(angle := FullTurn)
  {
  }

  /** Left then Right restores a reachable heading, except 360, which becomes 0. */
  lemma LeftThenRight(s: State, bearing: int -> Dir)
    requires HeadingOk(s.angle)
    ensures PressSpecial(PressSpecial(s, KeyLeft, bearing), KeyRight, bearing) == s <==> s.angle != FullTurn
    ensures s.angle == FullTurn ==> PressSpecial(PressSpecial(s, KeyLeft, bearing), KeyRight, bearing) == s.(angle := 0)
  {
  }

  /** Up then Down at a reachable heading returns the spacecraft to where it was. */
  lemma UpThenDown(s: State, bearing: int -> Dir)
    requires HeadingOk(s.angle)
    ensures PressSpecial(PressSpecial(s, KeyUp, bearing), KeyDown, bearing) == s
  {
  }

  /** Every sequence of special keys keeps a reachable heading reachable. */
  lemma {:induction false} HeadingStaysInRange(s: State, keys: seq<int>, bearing: int -> Dir)
    requires HeadingOk(s.angle)
    ensures HeadingOk(RunSpecial(s, keys, bearing).angle)
    decreases |keys|
  {
    if |keys| > 0 {
      HeadingStaysInRange(PressSpecial(s, keys[0], bearing), keys[1..], bearing);
    }
  }

  /** `n` Left presses from heading 0 (n <= 72) reach 5n degrees, so every heading in [0, 360] is reachable. */
  lemma {:induction false} LeftPressesReach(n: nat, bearing: int -> Dir)
    requires n <= FullTurn / TurnStep
    ensures RunSpecial(Init(), seq(n, _ => KeyLeft), bearing).angle == TurnStep * n
  {
    var keys := seq(n, _ => KeyLeft);
    if n > 0 {
      var prefix := seq(n - 1, _ => KeyLeft);
      LeftPressesReach(n - 1, bearing);
      RunSpecialSnoc(Init(), prefix, KeyLeft, bearing);
      assert keys == prefix + [KeyLeft];
    }
  }

  /** Running one more key at the end of a sequence is one more transition. */
  lemma {:induction false} RunSpecialSnoc(s: State, keys: seq<int>, key: int, bearing: int -> Dir)
    ensures RunSpecial(s, keys + [key], bearing) == PressSpecial(RunSpecial(s, keys, bearing), key, bearing)
    decreases |keys|
  {
    if |keys| == 0 {
      assert keys + [key] == [key];
    } else {
      assert (keys + [key])[1..] == keys[1..] + [key];
      RunSpecialSnoc(PressSpecial(s, keys[0], bearing), keys[1..], key, bearing);
    }
  }

  /** After an FPS tick, `n` redraws followed by the next tick report exactly `n` frames. */
  lemma {:induction false} FramesReported(s: State, value: int, n: nat)
    ensures Redraws(FrameCounterTick(s, value).next, n).frameCount == n
    ensures FrameCounterTick(Redraws(FrameCounterTick(s, value).next, n), 1).report == Some(n)
  {
    if n > 0 {
      FramesReported(s, value, n - 1);
    }
  }

  /**
   * From start-up, Up at heading 0 (sin 0, cos 1) moves the spacecraft from
   * (0, 150) to (0, 149); Right then turns it to 355 degrees.
   */
  lemma UpThenRightFromStart(bearing: int -> Dir)
    requires bearing(0) == Dir(0.0, 1.0)
    ensures PressSpecial(Init(), KeyUp, bearing).xVal == 0.0
    ensures PressSpecial(Init(), KeyUp, bearing).zVal == 149.0
    ensures PressSpecial(PressSpecial(Init(), KeyUp, bearing), KeyRight, bearing).angle == 355
  {
  }
}

=== FILE: draw_context.dfy ===
/**
 * The draw-context protocol: the four global flags (`sun`, `moon`, `saturn`,
 * `plan`) that the two viewport loops set and clear around each body's draw
 * call, modelled as the sequence of flag snapshots the draws observe.
 */
module DrawContext {

  /** Number of bodies in the catalog. */
  const AstNum: nat := 10
  const SunIndex: nat := 0
  const MoonIndex: nat := 4
  const SaturnIndex: nat := 7

  /** The four context flags, as seen by one draw call. */
  datatype Flags = Flags(sun: bool, moon: bool, saturn: bool, plan: bool)

  /** All four flags cleared: their state at start-up. */
  const Clear: Flags := Flags(false, false, false, false)

  /** The flags one viewport loop leaves behind and the snapshot seen by each draw. */
  datatype LoopRun = LoopRun(seen: seq<Flags>, after: Flags)

  /** The role a catalog index plays, stated independently of the loops. */
  datatype Role = SunRole | MoonRole | RingedRole | PlainRole

  /** The viewport a draw belongs to. */
  datatype View = MainView | PlanView

  function RoleOf(k: nat): Role {
    if k == SunIndex then SunRole
    else if k == MoonIndex then MoonRole
    else if k == SaturnIndex then RingedRole
    else PlainRole
  }

  function ViewOf(plan: bool): View {
    if plan then PlanView else MainView
  }

  /** The context a body of the given role should be drawn with in the given view. */
  function FlagsFor(role: Role, view: View): (f: Flags)
    ensures !(f.sun && f.moon) && !(f.sun && f.saturn) && !(f.moon && f.saturn)
    ensures f.plan <==> view == PlanView
  {
    Flags(role == SunRole, role == MoonRole, role == RingedRole, view == PlanView)
  }

  /**
   * Iterations `j` .. 9 of a viewport loop entered with globals `g`: set
   * `moon` at index 4 and `saturn` at index 7, draw, then clear `sun`, `moon`
   * and `saturn`. Only the first iteration can see flags left over from
   * before the loop.
   */
  function LoopFrom(j: nat, g: Flags): (r: LoopRun)
    requires j <= AstNum
    ensures |r.seen| == AstNum - j
    ensures j == AstNum ==> r.after == g
    ensures j < AstNum ==> r.after == g.(sun := false, moon := false, saturn := false)
    ensures j < AstNum ==> r.seen[0] == g.(moon := g.moon || j == MoonIndex, saturn := g.saturn || j == SaturnIndex)
    ensures forall k :: 0 < k < |r.seen| ==>
      r.seen[k] == Flags(false, j + k == MoonIndex, j + k == SaturnIndex, g.plan)
    decreases AstNum - j
  {
    if j == AstNum then LoopRun([], g)
    else
      var seen := g.(moon := if j == MoonIndex then true else g.moon,
                     saturn := if j == SaturnIndex then true else g.saturn);
      var rest := LoopFrom(j + 1, seen.(sun := false, moon := false, saturn := false));
      LoopRun([seen] + rest.seen, rest.after)
  }

  /**
   * The body loop of the main viewport: `sun` is set before the loop. When
   * `moon` and `saturn` are clear on entry, draw k sees exactly the context
   * of role k, and the loop leaves `sun`, `moon` and `saturn` cleared and
   * `plan` as it was.
   */
  function MainLoop(g: Flags): (r: LoopRun)
    ensures |r.seen| == AstNum
    ensures r.after == g.(sun := false, moon := false, saturn := false)
    ensures !g.moon && !g.saturn ==>
      forall k :: 0 <= k < AstNum ==> r.seen[k] == FlagsFor(RoleOf(k), ViewOf(g.plan))
  {
    LoopFrom(0, g.(sun := true))
  }

  /**
   * The body loop of the edge (plan) viewport: `sun` and `plan` are set
   * before the loop and `plan` is cleared after it. When `moon` and `saturn`
   * are clear on entry, draw k sees exactly the plan-view context of role k,
   * and all four flags are cleared afterwards.
   */
  function EdgeLoop(g: Flags): (r: LoopRun)
    ensures |r.seen| == AstNum
    ensures r.after == Clear
    ensures forall k :: 0 <= k < AstNum ==> r.seen[k].plan
    ensures !g.moon && !g.saturn ==>
      forall k :: 0 <= k < AstNum ==> r.seen[k] == FlagsFor(RoleOf(k), PlanView)
  {
    var run := LoopFrom(0, g.(sun := true, plan := true));
    LoopRun(run.seen, run.after.(plan := false))
  }

  /**
   * One redraw runs the main loop and then the edge loop; starting from
   * cleared flags it leaves them cleared, so every redraw starts from the
   * same context, and the two loops see each role's main-view and plan-view
   * context respectively.
   */
  lemma FrameKeepsFlagsClear()
    ensures MainLoop(Clear).after == Clear
    ensures EdgeLoop(MainLoop(Clear).after).after == Clear
    ensures forall k :: 0 <= k < AstNum ==> MainLoop(Clear).seen[k] == FlagsFor(RoleOf(k), MainView)
    ensures forall k :: 0 <= k < AstNum ==> EdgeLoop(Clear).seen[k] == FlagsFor(RoleOf(k), PlanView)
  {
  }

  /** In either loop, `sun` is seen only by draw 0, `moon` only by draw 4 and `saturn` only by draw 7. */
  lemma OneRolePerDraw(g: Flags, k: nat)
    requires !g.moon && !g.saturn
    requires k < AstNum
    ensures MainLoop(g).seen[k].sun <==> k == SunIndex
    ensures MainLoop(g).seen[k].moon <==> k == MoonIndex
    ensures MainLoop(g).seen[k].saturn <==> k == SaturnIndex
    ensures EdgeLoop(g).seen[k].sun <==> k == SunIndex
    ensures EdgeLoop(g).seen[k].moon <==> k == MoonIndex
    ensures EdgeLoop(g).seen[k].saturn <==> k == SaturnIndex
  {
  }
}

=== FILE: event_loop.dfy ===
/**
 * The single-threaded event loop: the controller globals, the context flags
 * and the queue of registered timers, advanced one callback at a time. Any
 * registered timer may be the next to fire, which covers every order the
 * toolkit's deadlines can produce.
 */
module EventLoop {
  import opened Types
  import opened Controller
  import opened DrawContext
  import Bodies
  import Scene

  datatype World = World(ctl: State, flags: Flags, pending: seq<Timer>)

  /** One callback invocation by the toolkit. */
  datatype Event =
    | Key(key: Byte)
    | Special(code: int)
    | Fire(slot: nat)
    | Display

  /** Start-up: initial globals, cleared flags, and the FPS timer registered with delay 0 and value 0. */
  function Setup(): (w: World)
    ensures w.ctl == Init() && w.flags == Clear
    ensures w.pending == [Timer(0, FrameCounter, 0)]
  {
    World(Init(), Clear, [Timer(0, FrameCounter, 0)])
  }

  /** The number of registered timers that will call `cb`. */
  function Count(ts: seq<Timer>, cb: Callback): nat
    decreases |ts|
  {
    if |ts| == 0 then 0 else (if ts[0].callback == cb then 1 else 0) + Count(ts[1..], cb)
  }

  lemma {:induction false} CountConcat(a: seq<Timer>, b: seq<Timer>, cb: Callback)
    ensures Count(a + b, cb) == Count(a, cb) + Count(b, cb)
    decreases |a|
  {
    if |a| > 0 {
      assert (a + b)[1..] == a[1..] + b;
      CountConcat(a[1..], b, cb);
    } else {
      assert a + b == b;
    }
  }

  /** The queue after timer `i` has fired and left it. */
  function Without(ts: seq<Timer>, i: nat): (r: seq<Timer>)
    requires i < |ts|
    ensures |r| == |ts| - 1
    ensures forall cb :: Count(r, cb) == Count(ts, cb) - (if ts[i].callback == cb then 1 else 0)
    ensures multiset(r) == multiset(ts) - multiset{ts[i]}
  {
    var r := ts[..i] + ts[i + 1..];
    assert ts == ts[..i] + [ts[i]] + ts[i + 1..];
    forall cb ensures Count(r, cb) == Count(ts, cb) - (if ts[i].callback == cb then 1 else 0) {
      CountConcat(ts[..i], ts[i + 1..], cb);
      CountConcat(ts[..i] + [ts[i]], ts[i + 1..], cb);
      CountConcat(ts[..i], [ts[i]], cb);
    }
    r
  }

  /** The world after a callback that produced `step`. */
  function Apply(w: World, step: Step): World {
    World(step.next, w.flags, w.pending + step.scheduled)
  }

  /** Fire timer `i` of the queue: it leaves the queue and its callback runs with its value. */
  function FireTimer(w: World, i: nat): (r: World)
    requires i < |w.pending|
    ensures r.flags == w.flags
    ensures w.pending[i].callback == FrameCounter ==>
      r.ctl == FrameCounterTick(w.ctl, w.pending[i].value).next &&
      r.pending == Without(w.pending, i) + [Timer(FpsPeriod, FrameCounter, 1)]
    ensures w.pending[i].callback == Animate ==>
      r.ctl == AnimateTick(w.ctl).next &&
      r.pending == Without(w.pending, i) + (if w.ctl.isAnimate then [Timer(w.ctl.animationPeriod, Animate, 1)] else [])
  {
    var t := w.pending[i];
    var step := match t.callback
      case Animate => AnimateTick(w.ctl)
      case FrameCounter => FrameCounterTick(w.ctl, t.value);
    Apply(w.(pending := Without(w.pending, i)), step)
  }

  /**
   * The next world after one callback, or None when the process exits.
   * A `Fire` of a slot that holds no timer is an event that cannot happen
   * and leaves the world as it is. A redisplay draws the scene with the
   * given catalog.
   */
  function Dispatch(w: World, e: Event, bearing: int -> Dir, catalog: seq<Bodies.Asteroid>): (r: Option<World>)
    requires |catalog| == AstNum
    ensures r.None? <==> e == Key(Escape)
    ensures e.Display? ==> r.Some? && r.value.pending == w.pending
    ensures e.Display? ==> r.Some? && r.value.flags == Clear
    ensures e.Display? ==> r.Some? && r.value.ctl == w.ctl.(frameCount := w.ctl.frameCount + 1)
    ensures e.Special? ==> r.Some? && r.value.pending == w.pending
    ensures e.Key? && e.key != Escape ==> r == Some(Apply(w, KeyInput(w.ctl, e.key).step))
    ensures e.Special? ==> r == Some(Apply(w, SpecialKeyInput(w.ctl, e.code, bearing)))
    ensures e.Fire? && e.slot < |w.pending| ==> r == Some(FireTimer(w, e.slot))
  {
    match e
    case Key(k) =>
      (match KeyInput(w.ctl, k)
       case Exit => None
       case Continue(step) => Some(Apply(w, step)))
    case Special(code) => Some(Apply(w, SpecialKeyInput(w.ctl, code, bearing)))
    case Fire(i) => if i < |w.pending| then Some(FireTimer(w, i)) else Some(w)
    case Display =>
      var frame := Scene.DrawScene(w.ctl, w.flags, catalog);
      Some(World(frame.next, frame.flags, w.pending))
  }

  /** The world after a sequence of callbacks, or None once the process has exited. */
  function Run(w: World, events: seq<Event>, bearing: int -> Dir, catalog: seq<Bodies.Asteroid>): Option<World>
    requires |catalog| == AstNum
    decreases |events|
  {
    if |events| == 0 then Some(w)
    else match Dispatch(w, events[0], bearing, catalog)
      case None => None
      case Some(w') => Run(w', events[1..], bearing, catalog)
  }

  /**
   * What holds between callbacks of the program as written: the period and
   * heading are reachable values, the orbital angle is a non-negative
   * multiple of 5, the frame counter is non-negative, the context flags are
   * cleared, exactly one FPS timer is registered, and while animating at
   * least one orbit timer is registered.
   */
  predicate Inv(w: World) {
    && PeriodOk(w.ctl.animationPeriod)
    && HeadingOk(w.ctl.angle)
    && w.ctl.latAngle >= 0 && w.ctl.latAngle % OrbitStep == 0
    && w.ctl.frameCount >= 0
    && w.flags == Clear
    && Count(w.pending, FrameCounter) == 1
    && (w.ctl.isAnimate ==> Count(w.pending, Animate) >= 1)
  }

  lemma SetupInv()
    ensures Inv(Setup())
  {
  }

  /** A printable key other than Escape keeps the invariant. */
  lemma KeyKeepsInv(w: World, k: Byte)
    requires Inv(w) && k != Escape
    ensures Inv(Apply(w, KeyInput(w.ctl, k).step))
  {
    var step := KeyInput(w.ctl, k).step;
    CountConcat(w.pending, step.scheduled, FrameCounter);
    CountConcat(w.pending, step.scheduled, Animate);
  }

  /** A special key keeps the invariant. */
  lemma SpecialKeepsInv(w: World, code: int, bearing: int -> Dir)
    requires Inv(w)
    ensures Inv(Apply(w, SpecialKeyInput(w.ctl, code, bearing)))
  {
    assert w.pending + [] == w.pending;
  }

  /** A timer firing keeps the invariant. */
  lemma FireKeepsInv(w: World, i: nat)
    requires Inv(w) && i < |w.pending|
    ensures Inv(FireTimer(w, i))
  {
    var rest := Without(w.pending, i);
    var step := match w.pending[i].callback
      case Animate => AnimateTick(w.ctl)
      case FrameCounter => FrameCounterTick(w.ctl, w.pending[i].value);
    CountConcat(rest, step.scheduled, FrameCounter);
    CountConcat(rest, step.scheduled, Animate);
  }

  /** A printable key keeps the invariant unless it ends the process. */
  lemma KeyDispatchKeepsInv(w: World, k: Byte, bearing: int -> Dir, catalog: seq<Bodies.Asteroid>)
    requires |catalog| == AstNum
    requires Inv(w)
    ensures var r := Dispatch(w, Key(k), bearing, catalog); r.Some? ==> Inv(r.value)
  {
    if k != Escape {
      KeyKeepsInv(w, k);
    }
  }

  /** A redraw keeps the invariant: it only counts a frame and leaves the flags cleared. */
  lemma DisplayKeepsInv(w: World, bearing: int -> Dir, catalog: seq<Bodies.Asteroid>)
    requires |catalog| == AstNum
    requires Inv(w)
    ensures var r := Dispatch(w, Display, bearing, catalog); r.Some? && Inv(r.value)
  {
  }

  /** Every callback keeps the invariant. */
  lemma DispatchKeepsInv(w: World, e: Event, bearing: int -> Dir, catalog: seq<Bodies.Asteroid>)
    requires |catalog| == AstNum
    requires Inv(w)
    ensures var r := Dispatch(w, e, bearing, catalog); r.Some? ==> Inv(r.value)
  {
    match e
    case Key(k) =>
      KeyDispatchKeepsInv(w, k, bearing, catalog);
    case Special(code) =>
      SpecialKeepsInv(w, code, bearing);
    case Fire(i) =>
      if i < |w.pending| {
        FireKeepsInv(w, i);
      }
    case Display =>
      DisplayKeepsInv(w, bearing, catalog);
  }

  /** Every sequence of callbacks from a world satisfying the invariant keeps it. */
  lemma {:induction false} RunKeepsInv(w: World, events: seq<Event>, bearing: int -> Dir, catalog: seq<Bodies.Asteroid>)
    requires |catalog| == AstNum
    requires Inv(w)
    ensures var r := Run(w, events, bearing, catalog); r.Some? ==> Inv(r.value)
    decreases |events|
  {
    if |events| > 0 {
      DispatchKeepsInv(w, events[0], bearing, catalog);
      var r := Dispatch(w, events[0], bearing, catalog);
      if r.Some? {
        RunKeepsInv(r.value, events[1..], bearing, catalog);
      }
    }
  }

  /** Every world the program reaches from start-up satisfies the invariant. */
  lemma ReachableInv(events: seq<Event>, bearing: int -> Dir, catalog: seq<Bodies.Asteroid>)
    requires |catalog| == AstNum
    ensures var r := Run(Setup(), events, bearing, catalog); r.Some? ==> Inv(r.value)
  {
    SetupInv();
    RunKeepsInv(Setup(), events, bearing, catalog);
  }

  // ---------------------------------------------------------------------
  // Orbit timer chains. Switching animation off does not cancel the orbit
  // timer already registered; switching it on again registers another. If
  // both presses fall before the old timer fires, that timer finds the flag
  // set and re-registers itself, so two chains advance the angle until
  // animation stays off long enough for both timers to fire with it clear.
  // ---------------------------------------------------------------------

  /** Space while animating: the flag is cleared and nothing else changes; no timer is touched. */
  lemma SpaceOff(w: World, bearing: int -> Dir, catalog: seq<Bodies.Asteroid>)
    requires |catalog| == AstNum
    requires w.ctl.isAnimate
    ensures Dispatch(w, Key(Space), bearing, catalog) == Some(w.(ctl := w.ctl.(isAnimate := false)))
  {
    var step := KeyInput(w.ctl, Space).step;
    assert step.scheduled == [];
    assert w.pending + [] == w.pending;
  }

  /** Space while not animating: the flag is set, the orbit callback runs at once and registers one timer. */
  lemma SpaceOn(w: World, bearing: int -> Dir, catalog: seq<Bodies.Asteroid>)
    requires |catalog| == AstNum
    requires !w.ctl.isAnimate
    ensures Dispatch(w, Key(Space), bearing, catalog) ==
      Some(World(w.ctl.(isAnimate := true, latAngle := w.ctl.latAngle + OrbitStep), w.flags,
                 w.pending + [Timer(w.ctl.animationPeriod, Animate, 1)]))
  {
  }

  /** An orbit timer firing while animating advances the angle one step and registers its successor. */
  lemma FireOrbit(w: World, i: nat, bearing: int -> Dir, catalog: seq<Bodies.Asteroid>)
    requires |catalog| == AstNum
    requires i < |w.pending| && w.pending[i].callback == Animate && w.ctl.isAnimate
    ensures Dispatch(w, Fire(i), bearing, catalog) ==
      Some(World(w.ctl.(latAngle := w.ctl.latAngle + OrbitStep), w.flags,
                 Without(w.pending, i) + [Timer(w.ctl.animationPeriod, Animate, 1)]))
  {
  }

  /** Space off then on, as written, adds one orbit timer to those already registered. */
  lemma ToggleOffOnAddsChain(w: World, bearing: int -> Dir, catalog: seq<Bodies.Asteroid>)
    requires |catalog| == AstNum
    requires w.ctl.isAnimate
    ensures var r := Run(w, [Key(Space), Key(Space)], bearing, catalog);
      r.Some? && r.value.ctl.isAnimate &&
      Count(r.value.pending, Animate) == Count(w.pending, Animate) + 1
  {
    var step1 := KeyInput(w.ctl, Space).step;
    var w1 := Apply(w, step1);
    assert step1.scheduled == [];
    assert w1.pending == w.pending;
    var step2 := KeyInput(w1.ctl, Space).step;
    var w2 := Apply(w1, step2);
    assert step2 == AnimateTick(w1.ctl.(isAnimate := true));
    assert step2.scheduled == [Timer(w.ctl.animationPeriod, Animate, 1)];
    CountConcat(w1.pending, step2.scheduled, Animate);
    var evs := [Key(Space), Key(Space)];
    assert Run(w2, evs[1..][1..], bearing, catalog) == Some(w2);
    assert Run(w1, evs[1..], bearing, catalog) == Some(w2);
  }

  /** Running a non-empty sequence is dispatching its first event and running the rest. */
  lemma RunFirst(w: World, w': World, events: seq<Event>, bearing: int -> Dir, catalog: seq<Bodies.Asteroid>)
    requires |catalog| == AstNum
    requires |events| > 0 && Dispatch(w, events[0], bearing, catalog) == Some(w')
    ensures Run(w, events, bearing, catalog) == Run(w', events[1..], bearing, catalog)
  {
  }

  /** The world after Space is pressed on, off and on from start-up with no tick in between. */
  function TwoChainWorld(latAngle: int): World {
    var a := Timer(InitialPeriod, Animate, 1);
    World(Init().(isAnimate := true, latAngle := latAngle), Clear, [Timer(0, FrameCounter, 0), a, a])
  }

  /**
   * From start-up, three presses of Space (on, off, on) with no tick in
   * between leave two orbit timers registered.
   */
  lemma ThreeSpacesFromStart(bearing: int -> Dir, catalog: seq<Bodies.Asteroid>)
    requires |catalog| == AstNum
    ensures Run(Setup(), [Key(Space), Key(Space), Key(Space)], bearing, catalog) == Some(TwoChainWorld(10))
    ensures Count(TwoChainWorld(10).pending, Animate) == 2
  {
    var w0 := Setup();
    var a := Timer(InitialPeriod, Animate, 1);
    var fps := Timer(0, FrameCounter, 0);
    var on := w0.ctl.(isAnimate := true);
    var w1 := World(on.(latAngle := 5), Clear, [fps, a]);
    SpaceOn(w0, bearing, catalog);
    assert w0.pending + [a] == [fps, a];
    var w2 := World(w1.ctl.(isAnimate := false), Clear, [fps, a]);
    SpaceOff(w1, bearing, catalog);
    var w3 := TwoChainWorld(10);
    SpaceOn(w2, bearing, catalog);
    assert w2.pending + [a] == [fps, a, a];
    var evs := [Key(Space), Key(Space), Key(Space)];
    RunFirst(w0, w1, evs, bearing, catalog);
    RunFirst(w1, w2, evs[1..], bearing, catalog);
    RunFirst(w2, w3, evs[1..][1..], bearing, catalog);
    assert evs[1..][1..][1..] == [];
    assert Count([fps, a, a], Animate) == 2 by {
      assert [a][1..] == [];
      assert Count([a], Animate) == 1;
      assert [a, a][1..] == [a];
      assert Count([a, a], Animate) == 2;
      assert [fps, a, a][1..] == [a, a];
    }
  }

  /** Removing the middle one of three timers keeps the outer two in order. */
  lemma WithoutMiddle(x: Timer, y: Timer, z: Timer)
    ensures Without([x, y, z], 1) == [x, z]
  {
    assert [x, y, z][..1] == [x];
    assert [x, y, z][2..] == [z];
  }

  /** With two orbit chains, one of them firing advances the angle one step and re-registers. */
  lemma TwoChainFire(latAngle: int, bearing: int -> Dir, catalog: seq<Bodies.Asteroid>)
    requires |catalog| == AstNum
    ensures Dispatch(TwoChainWorld(latAngle), Fire(1), bearing, catalog) == Some(TwoChainWorld(latAngle + OrbitStep))
  {
    var w := TwoChainWorld(latAngle);
    var fps := Timer(0, FrameCounter, 0);
    var a := Timer(InitialPeriod, Animate, 1);
    WithoutMiddle(fps, a, a);
    assert [fps, a] + [a] == [fps, a, a];
    FireOrbit(w, 1, bearing, catalog);
  }

  /** With two orbit chains, both timers firing advance the angle two steps and both re-register. */
  lemma TwoChainsDoubleSpeed(latAngle: int, bearing: int -> Dir, catalog: seq<Bodies.Asteroid>)
    requires |catalog| == AstNum
    ensures Run(TwoChainWorld(latAngle), [Fire(1), Fire(1)], bearing, catalog) ==
      Some(TwoChainWorld(latAngle + 2 * OrbitStep))
  {
    var w0 := TwoChainWorld(latAngle);
    var w1 := TwoChainWorld(latAngle + OrbitStep);
    var w2 := TwoChainWorld(latAngle + 2 * OrbitStep);
    TwoChainFire(latAngle, bearing, catalog);
    TwoChainFire(latAngle + OrbitStep, bearing, catalog);
    var evs := [Fire(1), Fire(1)];
    RunFirst(w0, w1, evs, bearing, catalog);
    RunFirst(w1, w2, evs[1..], bearing, catalog);
    assert evs[1..][1..] == [];
  }

  // ---------------------------------------------------------------------
  // Corrected loop: switching animation off cancels the registered orbit
  // timers, so exactly one chain runs while animating and none otherwise.
  // ---------------------------------------------------------------------

  /** The queue with every timer that calls `cb` removed, others kept in order. */
  function Cancel(ts: seq<Timer>, cb: Callback): (r: seq<Timer>)
    ensures Count(r, cb) == 0
    ensures forall other :: other != cb ==> Count(r, other) == Count(ts, other)
    ensures forall t: Timer :: t.callback != cb ==> multiset(r)[t] == multiset(ts)[t]
    ensures forall t :: t in r ==> t in ts
    decreases |ts|
  {
    if |ts| == 0 then []
    else
      var rest := Cancel(ts[1..], cb);
      var r := if ts[0].callback == cb then rest else [ts[0]] + rest;
      assert r != [] ==> r[1..] == rest || r == rest;
      assert ts == [ts[0]] + ts[1..];
      assert multiset(ts) == multiset{ts[0]} + multiset(ts[1..]);
      r
  }

  /** As `Dispatch`, except that Space switching animation off also cancels the orbit timers. */
  function DispatchCancelling(w: World, e: Event, bearing: int -> Dir, catalog: seq<Bodies.Asteroid>): (r: Option<World>)
    requires |catalog| == AstNum
    ensures r.None? <==> e == Key(Escape)
    ensures e == Key(Space) && w.ctl.isAnimate ==> r.Some? && Count(r.value.pending, Animate) == 0
    ensures e == Key(Space) && w.ctl.isAnimate ==>
      && r.Some? && r.value.ctl == w.ctl.(isAnimate := false) && r.value.flags == w.flags
      && forall t: Timer :: t.callback != Animate ==> multiset(r.value.pending)[t] == multiset(w.pending)[t]
    ensures !(e == Key(Space) && w.ctl.isAnimate) ==> r == Dispatch(w, e, bearing, catalog)
  {
    if e == Key(Space) && w.ctl.isAnimate then
      Some(World(w.ctl.(isAnimate := false), w.flags, Cancel(w.pending, Animate)))
    else
      Dispatch(w, e, bearing, catalog)
  }

  /** The invariant of the corrected loop: `Inv`, and one orbit timer while animating, none otherwise. */
  predicate SingleChain(w: World) {
    Inv(w) && Count(w.pending, Animate) == (if w.ctl.isAnimate then 1 else 0)
  }

  /** A printable key of the corrected loop other than Space-off keeps a single orbit chain. */
  lemma KeyKeepsSingleChain(w: World, k: Byte, bearing: int -> Dir, catalog: seq<Bodies.Asteroid>)
    requires |catalog| == AstNum
    requires SingleChain(w) && !(k == Space && w.ctl.isAnimate)
    ensures var r := Dispatch(w, Key(k), bearing, catalog); r.Some? ==> SingleChain(r.value)
  {
    if k != Escape {
      KeyKeepsInv(w, k);
      CountConcat(w.pending, KeyInput(w.ctl, k).step.scheduled, Animate);
    }
  }

  /** Every callback of the corrected loop keeps exactly one orbit chain while animating and none otherwise. */
  lemma DispatchCancellingKeepsSingleChain(w: World, e: Event, bearing: int -> Dir, catalog: seq<Bodies.Asteroid>)
    requires |catalog| == AstNum
    requires SingleChain(w)
    ensures var r := DispatchCancelling(w, e, bearing, catalog); r.Some? ==> SingleChain(r.value)
  {
    if e == Key(Space) && w.ctl.isAnimate {
    } else {
      match e
      case Key(k) =>
        KeyKeepsSingleChain(w, k, bearing, catalog);
      case Special(code) =>
        SpecialKeepsInv(w, code, bearing);
      case Fire(i) =>
        if i < |w.pending| {
          FireKeepsInv(w, i);
          FireKeepsChainCount(w, i);
        }
      case Display =>
        DisplayKeepsInv(w, bearing, catalog);
    }
  }

  /** A timer firing replaces an orbit timer by at most one successor, and only while animating. */
  lemma FireKeepsChainCount(w: World, i: nat)
    requires i < |w.pending|
    ensures Count(FireTimer(w, i).pending, Animate) ==
      Count(w.pending, Animate) - (if w.pending[i].callback == Animate && !w.ctl.isAnimate then 1 else 0)
    ensures FireTimer(w, i).ctl.isAnimate == w.ctl.isAnimate
  {
    var rest := Without(w.pending, i);
    var step := match w.pending[i].callback
      case Animate => AnimateTick(w.ctl)
      case FrameCounter => FrameCounterTick(w.ctl, w.pending[i].value);
    CountConcat(rest, step.scheduled, Animate);
    if step.scheduled != [] {
      assert step.scheduled[1..] == [];
    }
  }

  /** Space off then on in the corrected loop leaves a single orbit chain, where the program as written has two. */
  lemma ToggleOffOnKeepsOneChain(w: World, bearing: int -> Dir, catalog: seq<Bodies.Asteroid>)
    requires |catalog| == AstNum
    requires SingleChain(w) && w.ctl.isAnimate
    ensures var r1 := DispatchCancelling(w, Key(Space), bearing, catalog);
      r1.Some? &&
      var r2 := DispatchCancelling(r1.value, Key(Space), bearing, catalog);
      r2.Some? && r2.value.ctl.isAnimate && Count(r2.value.pending, Animate) == 1
  {
    var r1 := DispatchCancelling(w, Key(Space), bearing, catalog);
    DispatchCancellingKeepsSingleChain(w, Key(Space), bearing, catalog);
    DispatchCancellingKeepsSingleChain(r1.value, Key(Space), bearing, catalog);
  }

  /** Start-up satisfies the corrected loop's invariant: no orbit timer is registered and animation is off. */
  lemma SetupSingleChain()
    ensures SingleChain(Setup())
  {
  }

  /** The corrected loop over a sequence of callbacks, or None once the process has exited. */
  function RunCancelling(w: World, events: seq<Event>, bearing: int -> Dir, catalog: seq<Bodies.Asteroid>): Option<World>
    requires |catalog| == AstNum
    decreases |events|
  {
    if |events| == 0 then Some(w)
    else match DispatchCancelling(w, events[0], bearing, catalog)
      case None => None
      case Some(w') => RunCancelling(w', events[1..], bearing, catalog)
  }

  /** Every sequence of callbacks of the corrected loop keeps a single orbit chain. */
  lemma {:induction false} RunCancellingKeepsSingleChain(w: World, events: seq<Event>, bearing: int -> Dir, catalog: seq<Bodies.Asteroid>)
    requires |catalog| == AstNum
    requires SingleChain(w)
    ensures var r := RunCancelling(w, events, bearing, catalog); r.Some? ==> SingleChain(r.value)
    decreases |events|
  {
    if |events| > 0 {
      DispatchCancellingKeepsSingleChain(w, events[0], bearing, catalog);
      var r := DispatchCancelling(w, events[0], bearing, catalog);
      if r.Some? {
        RunCancellingKeepsSingleChain(r.value, events[1..], bearing, catalog);
      }
    }
  }

  /**
   * Every world the corrected loop reaches from start-up, in any timer order,
   * has exactly one orbit timer while animating and none otherwise.
   */
  lemma ReachableSingleChain(events: seq<Event>, bearing: int -> Dir, catalog: seq<Bodies.Asteroid>)
    requires |catalog| == AstNum
    ensures var r := RunCancelling(Setup(), events, bearing, catalog);
      r.Some? ==> Inv(r.value) && Count(r.value.pending, Animate) == (if r.value.ctl.isAnimate then 1 else 0)
  {
    SetupSingleChain();
    RunCancellingKeepsSingleChain(Setup(), events, bearing, catalog);
  }
}

=== FILE: scene.dfy ===
/**
 * The redraw routine: count the frame, decide whether the star field is
 * regenerated, then draw the bodies of the main viewport and of the edge
 * (plan) viewport under the flag protocol of `DrawContext`.
 */
module Scene {
  import opened Controller
  import opened DrawContext
  import opened Bodies

  /**
   * One command of a viewport: the draw call of catalog entry `index`
   * together with the context flags it sees, an orbit belt, or the
   * spacecraft.
   */
  datatype ViewCmd =
    | Body(index: nat, flags: Flags)
    | Belt(index: nat, radius: real)
    | Craft(x: real, z: real, heading: int)

  /**
   * One redraw: the new globals, the flags left behind, whether the star
   * field was regenerated, and the commands of the two viewports.
   */
  datatype Frame = Frame(next: State, flags: Flags, regenerate: bool, main: seq<ViewCmd>, edge: seq<ViewCmd>)

  /**
   * What the draw call of a body command does, given the catalog, the speeds
   * and the globals; belts, the spacecraft and indices outside the catalog
   * draw no body.
   */
  function Render(catalog: seq<Asteroid>, speeds: seq<real>, c: ViewCmd, s: State): (r: DrawCmd)
    ensures r.Sphere? ==> c.Body? && c.index < |catalog| && c.index < |speeds|
    ensures c.Body? && c.index < |catalog| && c.index < |speeds| ==> (r.Sphere? <==> Exists(catalog[c.index]))
    // The draw reads the orbital angle for the orbit rotation and the spacecraft position for the light.
    ensures r.Sphere? ==> |r.rotations| >= 1 && r.rotations[0] == Rotation(s.latAngle as real * speeds[c.index], YAxis)
    ensures r.Sphere? && c.flags.sun ==>
      r.light == AtSpacecraft(s.xVal, if c.flags.plan then PlanLightHeight else 0.0, s.zVal)
    ensures r.Sphere? ==> r.center == catalog[c.index].center && r.radius == catalog[c.index].radius
  {
    if c.Body? && c.index < |catalog| && c.index < |speeds| then
      Draw(catalog[c.index], speeds[c.index], c.flags, s.latAngle, s.xVal, s.zVal)
    else
      Skipped
  }

  /** The main viewport's draw calls for indices `k` .. with snapshots `seen`. */
  function MainCmds(seen: seq<Flags>, k: nat): (r: seq<ViewCmd>)
    requires k <= |seen|
    ensures |r| == |seen| - k
    ensures forall i :: 0 <= i < |r| ==> r[i] == Body(k + i, seen[k + i])
    decreases |seen| - k
  {
    if k == |seen| then [] else [Body(k, seen[k])] + MainCmds(seen, k + 1)
  }

  /** The edge viewport's draw call and orbit belt for indices `k` .., in that order. */
  function EdgeCmds(catalog: seq<Asteroid>, seen: seq<Flags>, k: nat): (r: seq<ViewCmd>)
    requires |catalog| == |seen| && k <= |seen|
    ensures |r| == 2 * (|seen| - k)
    ensures forall i :: 0 <= i < |seen| - k ==>
      r[2 * i] == Body(k + i, seen[k + i]) && r[2 * i + 1] == Belt(k + i, catalog[k + i].center.x)
    decreases |seen| - k
  {
    if k == |seen| then []
    else
      var rest := EdgeCmds(catalog, seen, k + 1);
      var here := [Body(k, seen[k]), Belt(k, catalog[k].center.x)];
      assert forall i :: 1 <= i < |seen| - k ==> (here + rest)[2 * i] == rest[2 * (i - 1)];
      here + rest
  }

  /**
   * The edge viewport's commands with snapshots `seen`: draw call k, then
   * the orbit belt of radius x_k, for every k; then the spacecraft at its pose.
   */
  function EdgeCommands(catalog: seq<Asteroid>, seen: seq<Flags>, s: State): (r: seq<ViewCmd>)
    requires |catalog| == AstNum && |seen| == AstNum
    ensures |r| == 2 * AstNum + 1
    ensures r[2 * AstNum] == Craft(s.xVal, s.zVal, s.angle)
    ensures forall k :: 0 <= k < AstNum ==>
      r[2 * k] == Body(k, seen[k]) && r[2 * k + 1] == Belt(k, catalog[k].center.x)
  {
    var bodies := EdgeCmds(catalog, seen, 0);
    var r := bodies + [Craft(s.xVal, s.zVal, s.angle)];
    assert forall k :: 0 <= k < AstNum ==> r[2 * k] == bodies[2 * k] && r[2 * k + 1] == bodies[2 * k + 1];
    r
  }

  /**
   * One redraw from globals `s` and flags `g`. The frame counter goes up by
   * one and nothing else in the globals changes; the star field is
   * regenerated iff `generate` is set; the flags end cleared. The main
   * viewport issues draw call k with the k-th snapshot of the main loop; the
   * edge viewport issues draw call k with the k-th snapshot of the edge loop
   * (entered with the flags the main loop left), each followed by the orbit
   * belt of radius x_k, and ends with the spacecraft at its pose.
   */
  function DrawScene(s: State, g: Flags, catalog: seq<Asteroid>): (r: Frame)
    requires |catalog| == AstNum
    ensures r.next.frameCount == s.frameCount + 1
    ensures r.next.(frameCount := s.frameCount) == s
    ensures r.regenerate <==> s.generate
    ensures r.flags == Clear
    ensures |r.main| == AstNum && |r.edge| == 2 * AstNum + 1
    ensures r.edge[2 * AstNum] == Craft(s.xVal, s.zVal, s.angle)
    ensures forall k :: 0 <= k < AstNum ==> r.main[k] == Body(k, MainLoop(g).seen[k])
    ensures forall k :: 0 <= k < AstNum ==>
      r.edge[2 * k] == Body(k, EdgeLoop(MainLoop(g).after).seen[k]) &&
      r.edge[2 * k + 1] == Belt(k, catalog[k].center.x)
  {
    var next := CountFrame(s);
    var main := MainLoop(g);
    var edge := EdgeLoop(main.after);
    Frame(next, edge.after, s.generate, MainCmds(main.seen, 0), EdgeCommands(catalog, edge.seen, next))
  }

  /**
   * When `moon`, `saturn` and `plan` are clear on entry, draw k of the main
   * viewport sees the main-view context of its role.
   */
  lemma MainContexts(s: State, g: Flags, catalog: seq<Asteroid>, k: nat)
    requires |catalog| == AstNum && k < AstNum
    requires !g.moon && !g.saturn && !g.plan
    ensures var r := DrawScene(s, g, catalog); r.main[k] == Body(k, FlagsFor(RoleOf(k), MainView))
  {
  }

  /**
   * Draw k of the edge viewport sees the plan-view context of its role,
   * whatever flags the redraw was entered with: the main loop always clears
   * `sun`, `moon` and `saturn`.
   */
  lemma EdgeContexts(s: State, g: Flags, catalog: seq<Asteroid>, k: nat)
    requires |catalog| == AstNum && k < AstNum
    ensures var r := DrawScene(s, g, catalog); r.edge[2 * k] == Body(k, FlagsFor(RoleOf(k), PlanView))
  {
    assert !MainLoop(g).after.moon && !MainLoop(g).after.saturn;
  }

  /**
   * Entered with `moon`, `saturn` and `plan` clear (as every redraw is, from
   * cleared flags), the spacecraft-positioned light is used for
   * the sun (index 0) only, at height 0 in the main viewport and 300 in the
   * plan viewport; every other present body is lit from the origin; empty
   * slots draw nothing in either viewport.
   */
  lemma LightPlacementByIndex(s: State, g: Flags, catalog: seq<Asteroid>, speeds: seq<real>, k: nat)
    requires |catalog| == AstNum && |speeds| == AstNum && k < AstNum
    requires !g.moon && !g.saturn && !g.plan
    ensures var r := DrawScene(s, g, catalog);
      var m := Render(catalog, speeds, r.main[k], r.next);
      var e := Render(catalog, speeds, r.edge[2 * k], r.next);
      && (m.Skipped? <==> !Exists(catalog[k]))
      && (e.Skipped? <==> !Exists(catalog[k]))
      && (Exists(catalog[k]) && k == SunIndex ==>
            && m.Sphere? && m.light == AtSpacecraft(s.xVal, 0.0, s.zVal)
            && e.Sphere? && e.light == AtSpacecraft(s.xVal, PlanLightHeight, s.zVal))
      && (Exists(catalog[k]) && k != SunIndex ==>
            m.Sphere? && m.light == AtOrigin && e.Sphere? && e.light == AtOrigin)
  {
    MainContexts(s, g, catalog, k);
    EdgeContexts(s, g, catalog, k);
  }

  /**
   * Entered with `moon`, `saturn` and `plan` clear, only the moon (index 4) gets the second
   * rotation and only the ringed planet (index 7) gets rings, in both
   * viewports.
   */
  lemma RotationsAndRingsByIndex(s: State, g: Flags, catalog: seq<Asteroid>, speeds: seq<real>, k: nat)
    requires |catalog| == AstNum && |speeds| == AstNum && k < AstNum
    requires !g.moon && !g.saturn && !g.plan
    requires Exists(catalog[k])
    ensures var r := DrawScene(s, g, catalog);
      var m := Render(catalog, speeds, r.main[k], r.next);
      var e := Render(catalog, speeds, r.edge[2 * k], r.next);
      && m.Sphere? && e.Sphere?
      && (|m.rotations| == 2 <==> k == MoonIndex)
      && (|e.rotations| == 2 <==> k == MoonIndex)
      && (|m.rings| == RingCount <==> k == SaturnIndex)
      && (|e.rings| == RingCount <==> k == SaturnIndex)
  {
    MainContexts(s, g, catalog, k);
    EdgeContexts(s, g, catalog, k);
  }
}

=== FILE: types.dfy ===
/** Value types shared by the controller, the renderer and the event loop. */
module Types {

  /** An unsigned 8-bit value: a key code of the printable-key callback or a colour channel. */
  newtype Byte = x: int | 0 <= x < 256

  /** A value that may be absent. */
  datatype Option<+T> = None | Some(value: T)
}
